=== FILE: README.md ===
# P4nda5 core in Dafny

P4nda5 is a virtual pet for a microcontroller with a monochrome SSD1306
display. The display size comes from config.py, which is not part of this
model; the model takes it to be 128 x 64. This project models the core and
proves properties of it:

- **Health** (`health.dfy`): the two health bars of `HealthSystem`. Wireless
  health is reset to 100 by a radio sync and drains linearly to 0 over 10
  seconds. Contact health is reset by a physical contact and drains over 30
  seconds. The getters truncate the value to a percent or to a bar height in
  pixels.
- **Sprites** (`sprites.dfy`): the `SpriteManager` table from state name to a
  cyclic list of packed frames. An unknown state gets a 32 x 32 all-lit
  placeholder. `add_custom_sprite` replaces a state's list.
- **Screen** (`screen.dfy`): the display driver. The model records every call
  it receives (`fill`, `pixel`, `text`, `show`) as a trace.
- **Compositor** (`compositor.dfy`): the display calls each drawing helper of
  `GraphicsEngine` issues, written as functions. Lemmas state which pixels those
  calls light.
- **Graphics** (`graphics.dfy`): the `GraphicsEngine` class. Its tick decays
  health, advances the animation at most once per tick, when a frame interval
  has passed since the last advance, and redraws only a dirty pet. Each drawing method is proved to append exactly the calls its
  Compositor function describes.
- **Packer** (`packer.dfy`): the packing loop of the PNG converter. Rows are
  padded to whole bytes, eight pixels per byte, least significant bit first. It
  is proved to round-trip with the engine's unpacker.
- `bits.dfy` and `arith.dfy` hold byte, bit and division facts used by the
  proofs.

Frames are packed row-major. Each row takes `(width + 7) / 8` bytes. Bit `k` of a
byte is the pixel `k` columns right of the byte's first column. The clock is a
`real` parameter `now` in seconds wherever the source reads `time.time()`.

## Model

| member | source | states |
|---|---|---|
| Bits.RowBytes | graphics.py:158-159 | `(width + 7) // 8` bytes hold a row: at least `width` bits and fewer than `width + 8`, and at least one byte for a positive width |
| Bits.SetBit | tools/png_to_bitmap.py:41 | `byte_val \|= (1 << bit)` sets bit `bit` and leaves every other bit as it was |
| Health.Trunc | health_system.py:49-63 | Python's `int()` of a real truncates toward zero: the integer part from below for a non-negative value, from above for a negative one |
| Health.Decayed | health_system.py:41-47 | A channel's health after `elapsed` seconds: never negative, at most 100 for non-negative elapsed time, 100 at time 0, 0 exactly when the timeout has passed, otherwise `100 * (1 - elapsed / timeout)` |
| Health.Percent | health_system.py:49-55 | `int()` of a health value: within 0..100 for a value in range, and the integer part of a non-negative value |
| Health.PixelHeight | health_system.py:57-63 | The bar height of a non-negative health value is the floor of `health / 100 * max_height` |
| Health.PixelHeightBounds | health_system.py:57-63 | A health value within 0..100 gives a bar height within `0 .. max_height` |
| Health.PixelHeightFull | health_system.py:57-63 | Full health fills the bar: exactly `max_height` pixels |
| Health.DecayedAntitone | health_system.py:41-47 | More elapsed time never gives more health |
| Health.HalfTimeoutIsHalfHealth | health_system.py:41-51 | Half the timeout leaves health 50 and percent 50 |
| Health.PixelHeightMonotone | health_system.py:57-63 | More health never gives a shorter bar |
| Health.FullAndHalfBars | health_system.py:20-21 | On a 32-pixel bar, a fresh wireless reset fills 32 pixels, and contact 15 s after a reset fills 16 |
| Health.HealthSystem.constructor | health_system.py:7-21 | Both channels start at 100, with both timestamps at the construction time |
| Health.HealthSystem.OnWirelessSync | health_system.py:23-28 | Wireless health becomes 100 (percent 100) and its timestamp `now`. Contact is unchanged |
| Health.HealthSystem.OnPhysicalContact | health_system.py:30-35 | Contact health becomes 100 (percent 100) and its timestamp `now`. Wireless is unchanged |
| Health.HealthSystem.Update | health_system.py:37-47 | Each channel becomes `Decayed` of the time since its own last reset. Timestamps are unchanged. Values stay within 0..100 when the clock has not gone backwards |
| Health.HealthSystem.GetWirelessHealthPercent | health_system.py:49-51 | Wireless percent is within 0..100 for a health value within 0..100, and is the integer part of a non-negative health |
| Health.HealthSystem.GetContactHealthPercent | health_system.py:53-55 | Contact percent is within 0..100 for a health value within 0..100, and is the integer part of a non-negative health |
| Health.HealthSystem.GetWirelessHealthPixels | health_system.py:57-59 | Wireless bar height is within `0 .. max_height` for a health value within 0..100 and `max_height >= 0`, and is the floor of the scaled health when the health and `max_height` are non-negative |
| Health.HealthSystem.GetContactHealthPixels | health_system.py:61-63 | Contact bar height is within `0 .. max_height` for a health value within 0..100 and `max_height >= 0`, and is the floor of the scaled health when the health and `max_height` are non-negative |
| Health.UpdateTwice | health_system.py:37-47 | Calling `update` twice at the same instant gives the same values as calling it once (idempotence) |
| Health.DecayBetweenResets | health_system.py:37-47 | Without a reset in between, a later `update` never raises either channel |
| Sprites.Placeholder | sprites/sprite_manager.py:30-36 | The placeholder is 32 x 32, with 128 bytes (`RowBytes(32) * 32`), every byte 0xFF |
| Sprites.PlaceholderAllLit | sprites/sprite_manager.py:30-36 | Every one of the placeholder's 32 x 32 pixels is lit |
| Sprites.SpriteManager.constructor | sprites/sprite_manager.py:6-8 | The store starts with the given sprite table as its table |
| Sprites.SpriteManager.GetSprite | sprites/sprite_manager.py:10-27 | An unknown state gives the placeholder. A known state gives a member of its list, element `idx` itself when `idx` is in range. The result is drawable whenever the state's frames are (`CanDraw`), and so whenever the table is valid |
| Sprites.SpriteManager.AddCustomSprite | sprites/sprite_manager.py:38-49 | A list replaces the state's entry and is not merged with it. A single frame becomes a one-frame list. Every other state keeps its entry. A valid table stays valid after valid input. The state can then be drawn exactly when the new list is non-empty and all its frames are drawable |
| Sprites.ValidCanDraw | sprites/sprite_manager.py:21-27 | In a valid table every state, known or unknown, can be drawn |
| Sprites.GetSpriteCycles | sprites/sprite_manager.py:24-27 | The frame index works modulo the list length: index `i + len` gives the same frame as `i` |
| Sprites.FiveAdvancesOfFourFrames | sprites/sprite_manager.py:24-27 | Five steps through a four-frame animation land on frame 1 |
| Screen.Display.Fill | graphics.py:47 | Appends one `fill` call to the trace |
| Screen.Display.Pixel | graphics.py:167 | Appends one `pixel` call to the trace |
| Screen.Display.Text | graphics.py:69 | Appends one `text` call to the trace |
| Screen.Display.Show | graphics.py:71 | Appends one `show` call to the trace |
| Compositor.CenterOffset | graphics.py:59-60 | Floor-division centring: the left and right margins differ by at most one pixel, and so do the top and bottom margins, with the extra pixel on the right or bottom |
| Compositor.CenterOf32By32 | graphics.py:57-60 | A 32 x 32 sprite is drawn at (48, 16) |
| Compositor.BitmapCalls | graphics.py:149-154 | Empty data draws nothing |
| Compositor.BytesCallsOnScreen | graphics.py:157-167 | Every call the unpacker issues for the first `n` bytes is a lit pixel on the display |
| Compositor.BitmapCallsOnScreen | graphics.py:157-167 | Every call the unpacker issues is a lit pixel on the display |
| Compositor.ByteCallsPixel | graphics.py:161-167 | One byte lights pixel (px, py) exactly when it is on screen, its column is inside the width, its row is inside the height, and its bit is set |
| Compositor.ByteOfPixel | graphics.py:158-159 | The byte at index `r * RowBytes(width) + c / 8` is the one the unpacker places at row `r` and the 8-column group holding column `c` |
| Compositor.BytePixel | graphics.py:157-167 | Byte `i` lights (px, py) exactly when the pixel is on screen and inside the frame, `r * RowBytes(width) + c / 8 == i` for its column `c` and row `r`, and bit `c % 8` of the byte is set |
| Compositor.BytesCallsPixel | graphics.py:157-167 | The first `n` bytes light (px, py) exactly when it is on screen, inside the frame, its byte index is below `n`, and its bit is set |
| Compositor.BitmapPixel | graphics.py:141-167 | A frame drawn at (x, y) lights (px, py) exactly when the pixel is on screen, inside `width` x `height`, and its bit is set. Padding bits and bytes past `height` rows light nothing |
| Compositor.IconRowPixel | graphics.py:119-125 | One icon row lights (px, py) exactly when the pixel is on screen, on that row, within the first `n` columns, and set in the pattern |
| Compositor.IconRowsPixel | graphics.py:118-125 | The first `n` icon rows light (px, py) exactly when the pixel is on screen, within the 8 columns and the first `n` rows, and set in the pattern |
| Compositor.IconPixel | graphics.py:113-125 | An icon lights (px, py) exactly when the pixel is on screen, inside the 8 x 8 square and set in the pattern. Rows or columns missing from the pattern light nothing |
| Compositor.IconRowsOnScreen | graphics.py:118-125 | Every icon call is a lit, on-screen pixel |
| Compositor.ContactIconClipped | graphics.py:100-103 | The contact icon is placed at x = 128, the display width, so it draws nothing at all |
| Compositor.BarRowCalls | graphics.py:96-97 | One bar row is `BAR_WIDTH` pixel calls, left to right |
| Compositor.BarCalls | graphics.py:93-97 | A bar of `n > 0` rows is `n * 4` pixel calls, and nothing when `n <= 0` |
| Compositor.BarPixel | graphics.py:93-97 | A bar lights exactly the rectangle of its 4 columns and its bottom `n` rows of the 32-row track |
| Compositor.BarCallsArePixels | graphics.py:93-111 | A bar issues only pixel calls |
| Compositor.Upper | graphics.py:69 | Upper-casing keeps the label's length, turns each ASCII lower-case letter into its capital, keeps every other character, and leaves no lower-case ASCII letter |
| Compositor.FrameCallsEnds | graphics.py:45-72 | A frame begins by clearing the display and ends with the upper-case state name at (0, 56) followed by `show` |
| Compositor.FrameCallsShape | graphics.py:45-72 | Between the clear and the label, a frame issues only pixel calls |
| Graphics.PetState.UpdateAnimation | graphics.py:38 | Advances the animation index by one |
| Graphics.PetState.ResetDirtyFlag | graphics.py:72 | Clears the dirty flag |
| Graphics.GraphicsEngine.constructor | graphics.py:9-19 | Builds the sprite store from the sprite table and records the frame clock |
| Graphics.GraphicsEngine.Update | graphics.py:21-43 | Health always decays when a health system is present. The animation advances, and the frame clock moves to `now`, exactly when at least the frame interval has passed, and nothing moves otherwise. A dirty pet gets exactly one frame drawn and is left clean. A clean pet draws nothing |
| Graphics.GraphicsEngine.DrawFrame | graphics.py:45-72 | Appends exactly `FrameCalls` for the current sprite, state name and bar heights, and clears the dirty flag |
| Graphics.GraphicsEngine.DrawHealthBars | graphics.py:74-111 | Appends the signal icon, the wireless bar, the contact icon and the contact bar, with heights from the 32-pixel getters |
| Graphics.GraphicsEngine.DrawBar | graphics.py:93-97 | The bar loop appends exactly `BarCalls` |
| Graphics.GraphicsEngine.DrawSignalIcon | graphics.py:113-125 | Appends exactly the icon calls for the signal pattern |
| Graphics.GraphicsEngine.DrawContactIcon | graphics.py:127-139 | Appends exactly the icon calls for the contact pattern |
| Graphics.GraphicsEngine.DrawIcon | graphics.py:118-125 | The 8 x 8 clipped loop appends exactly `IconCalls` |
| Graphics.GraphicsEngine.DrawBitmap | graphics.py:141-167 | Appends exactly `BitmapCalls` for the frame at (x, y) |
| Graphics.GraphicsEngine.DrawByte | graphics.py:161-167 | The bit loop for one byte appends exactly that byte's calls |
| Packer.PngToBitmap | tools/png_to_bitmap.py:33-42 | The packing loop returns the packed image, `height * ceil(width / 8)` bytes |
| Packer.PackByte | tools/png_to_bitmap.py:35-41 | The bit loop returns the packed byte of pixels `x .. x+7` of row `y` |
| Packer.PackedRow | tools/png_to_bitmap.py:34-42 | A packed row has `ceil(width / 8)` bytes |
| Packer.PackedByteBit | tools/png_to_bitmap.py:35-41 | Bit `k` of a packed byte is set exactly when column `x + k` is inside the width and brighter than 127 |
| Packer.PackedLength | tools/png_to_bitmap.py:33-42 | The packed image has `rows * RowBytes(width)` bytes |
| Packer.PackedAt | tools/png_to_bitmap.py:33-42 | Byte `bx` of row `r` sits at index `r * RowBytes(width) + bx` |
| Packer.PackedBit | tools/png_to_bitmap.py:33-42 | Bit `b` of byte `y * RowBytes(width) + bx` is set exactly when pixel `(8 * bx + b, y)` is inside the width and brighter than 127. Padding bits are 0 |
| Packer.PackedBitAt | tools/png_to_bitmap.py:33-42 | Reading pixel (c, r) back by the unpacker's addressing gives the brightness test |
| Packer.PackedDrawable | tools/png_to_bitmap.py:33-42 | A packed image is a frame the engine can draw: no bytes at all when the width is 0 |
| Packer.RoundTrip | tools/png_to_bitmap.py:33-42 | Drawing a packed image at (x, y) lights exactly its on-screen pixels brighter than 127, for any width (a multiple of 8 or not) |
| Packer.RoundTripOnScreen | tools/png_to_bitmap.py:33-42 | With the whole image on the display, drawing it lights pixel (x + c, y + r) exactly when image pixel (c, r) is brighter than 127 |

## Left out

- The clock: `time.time()` becomes a `now` parameter. `HealthSystem.__init__` reads the clock twice; the constructor uses one reading for both timestamps. `GraphicsEngine.update` (graphics.py:29) and `HealthSystem.update` (health_system.py:39) each read the clock themselves; `Graphics.GraphicsEngine.Update` passes its one `now` to the health update, so the two readings are taken to be equal.
- The getters' documented 0-100 range holds only while health stays within 0..100, that is while the clock does not go backwards past a reset: a reading before the last reset gives health above 100 (as `max(0, 100 - elapsed / timeout * 100)` does in the source), and the percent and bar height then exceed 100 and `max_height`.
- Floating point: health values, times and the frame interval are exact reals, not IEEE doubles.
- Debug printing in `on_wireless_sync` and `on_physical_contact` is left out.
- config.py is not part of this model. `ANIMATION_FRAME_MS` is a field fixed at construction. The model takes `DISPLAY_WIDTH` = 128 and `DISPLAY_HEIGHT` = 64; the source only imports them. The centring, bar and icon positions and clipping in the model are computed for that size.
- pet_state.py is not part of this model. `update_animation` is modelled as adding one to the frame index and leaving `is_dirty` unchanged (`Update`'s promise that a clean pet draws nothing relies on this), and the sprite store takes the index modulo the list length. The pet's initial state is not modelled: `PetState` has no constructor, and the engine works from whatever name, frame index and dirty flag it is given.
- sprites/sprite_data.py is not part of this model. The sprite table is a constructor parameter. The `pattern` of the first `signal_icon` and `contact_icon` entries are parameters too, with an empty pattern standing for a missing entry (the source then draws nothing either way).
- Sprites.SpriteManager.GetSprite: table entries are always lists of frames. The source's branch that returns a non-list entry unchanged is not modelled. An empty list makes the source divide by zero; the model requires the list to be non-empty (`CanGet`).
- Frames are records with all three fields present. The defaults `get` supplies for a missing `width`, `height` or `data` are not modelled, and the `if sprite_bitmap` test is always true.
- Graphics.GraphicsEngine.DrawBitmap: a frame with data and a width from -7 to 0 makes the source divide by zero at graphics.py:158. With a width of -8 or less, `(width + 7) // 8` is negative, Python's `//` and `%` still run, and the test `col + bit < width` fails for every bit, so the source draws nothing. The model excludes all frames with data and a width of 0 or less (`Frame.Drawable`), so it also excludes these frames that the source draws as nothing. `DrawFrame` and `Update` accordingly require the current state's frames to be drawable (`CanDraw`).
- The engine and the sprite store share one `SPRITE_DATA` dictionary in the source, so `add_custom_sprite` could replace the icons. The model gives the engine its icon patterns separately, and this aliasing is not captured.
- `should_update_frame` is set in the constructor and never read, so the model only initialises it.
- Compositor.Upper: upper-cases the ASCII letters only, not the full Unicode case mapping of `str.upper()`.
- The two icon methods and the two bar loops of the source are written once each (`DrawIcon`, `DrawBar`), and both call sites use them. The unpacker's bit loop is the separate method `DrawByte`, and the packer's bit loop is the separate method `PackByte`.
- The rest of tools/png_to_bitmap.py is left out: image loading, 1-bit conversion and resizing (PIL), code generation, the command line and the error path. The image is a function from coordinates to luminance.
- lora_comm.py, utils/onewire_contact.py and utils/button_handler.py (radio, contact sensing, buttons) are outside this model. Their effect on health is only the two reset calls.

=== FILE: arith.dfy ===
/** Euclidean division facts with a variable divisor, used to locate a byte of
    a packed bitmap from its row and byte column. */
module Arith {

  /** A product of non-negative numbers is non-negative. */
  lemma {:induction false} MulNonNegative(a: int, b: int)
    requires a >= 0 && b >= 0
    ensures a * b >= 0
  {
    if a > 0 {
      MulNonNegative(a - 1, b);
      assert a * b == (a - 1) * b + b;
    }
  }

  /** A non-zero multiple of `d` is at least `d` away from zero. */
  lemma MulAwayFromZero(d: int, k: int)
    requires d > 0
    ensures k >= 1 ==> d * k >= d
    ensures k <= -1 ==> d * k <= -d
  {
    if k >= 1 {
      MulNonNegative(d, k - 1);
      assert d * k == d * (k - 1) + d;
    } else if k <= -1 {
      MulNonNegative(d, -k - 1);
      assert d * -k == d * (-k - 1) + d;
      assert d * k == -(d * -k);
    }
  }

  /** Quotient and remainder are unique: `q * d + r` with `0 <= r < d` divides back into `q` and `r`. */
  lemma DivModUnique(q: int, r: int, d: int)
    requires d > 0 && 0 <= r < d
    ensures (q * d + r) / d == q
    ensures (q * d + r) % d == r
  {
    var n := q * d + r;
    var q', r' := n / d, n % d;
    assert n == d * q' + r';
    assert 0 <= r' < d;
    assert d * (q' - q) == r - r' by {
      assert d * (q' - q) == d * q' - d * q;
      assert q * d == d * q;
    }
    MulAwayFromZero(d, q' - q);
  }

  /** Dividing a natural number gives a natural quotient and remainder. */
  lemma DivNonNegative(n: int, d: int)
    requires n >= 0 && d > 0
    ensures n / d >= 0 && 0 <= n % d < d
  {
    assert n == d * (n / d) + n % d;
    MulAwayFromZero(d, n / d);
  }

  /** Adding the divisor does not change the remainder. */
  lemma ModAddDivisor(a: int, d: int)
    requires d > 0
    ensures (a + d) % d == a % d
  {
    DivModUnique(a / d + 1, a % d, d);
    assert (a / d + 1) * d + a % d == a + d;
  }
}

=== FILE: bits.dfy ===
/** Packed monochrome bytes: eight horizontally adjacent pixels per byte,
    least significant bit first. Shared by the bitmap unpacker in graphics.py
    and the packer in tools/png_to_bitmap.py. */
module Bits {

  type Byte = bv8

  /** `1 << k` for a bit position of a byte. */
  function Mask(k: nat): (m: Byte)
    requires k < 8
    ensures m != 0
  {
    (1 as bv8) << k
  }

  /** `byte & (1 << k)` is non-zero: pixel k of the byte is lit. */
  predicate Bit(b: Byte, k: nat)
    requires k < 8
  {
    b & Mask(k) != 0
  }

  /** Bytes per bitmap row, `(width + 7) // 8`; for a non-negative width this is
      the ceiling of width / 8. Python's `//` and Dafny's `/` agree here because
      the divisor is positive. */
  function RowBytes(width: int): (n: int)
    ensures width >= 0 ==> n >= 0 && 8 * n >= width && 8 * n < width + 8
    ensures width > 0 ==> n > 0
  {
    (width + 7) / 8
  }

  /** Setting bit j (`b |= 1 << j`) turns on bit j and leaves every other bit as it was. */
  lemma SetBit(b: Byte, j: nat, k: nat)
    requires j < 8 && k < 8
    ensures Bit(b | Mask(j), k) <==> Bit(b, k) || k == j
  {
    if k == j {
      assert (b | Mask(j)) & Mask(j) == Mask(j);
    } else {
      DisjointMasks(j, k);
      assert (b | Mask(j)) & Mask(k) == b & Mask(k);
    }
  }

  /** Masks of two different bit positions share no bit. */
  lemma DisjointMasks(j: nat, k: nat)
    requires j < 8 && k < 8 && j != k
    ensures Mask(j) & Mask(k) == 0
  {
    assert k == 0 || k == 1 || k == 2 || k == 3 || k == 4 || k == 5 || k == 6 || k == 7;
  }

  /** The zero byte has no bit set. */
  lemma NoBitOfZero(k: nat)
    requires k < 8
    ensures !Bit(0, k)
  {
  }

  /** Every bit of 0xFF is set. */
  lemma AllBitsOfFF(k: nat)
    requires k < 8
    ensures Bit(0xFF, k)
  {
    assert k == 0 || k == 1 || k == 2 || k == 3 || k == 4 || k == 5 || k == 6 || k == 7;
  }
}

=== FILE: compositor.dfy ===
/** What the drawing helpers of graphics.py send to the display, as functions
    from their inputs to the sequence of display calls, in the order the
    source's loops issue them; and what those calls light. */
module Compositor {
  import opened Bits
  import opened Screen
  import opened Sprites
  import Arith

  const BAR_WIDTH: int := 4
  const BAR_HEIGHT: int := 32
  /** Top row of both bar tracks: the bars are vertically centred. */
  const BAR_Y: int := (DISPLAY_HEIGHT - BAR_HEIGHT) / 2
  const LEFT_X: int := 1
  const RIGHT_X: int := DISPLAY_WIDTH - BAR_WIDTH - 1
  const ICON_SIZE: int := 8
  const LABEL_X: int := 0
  const LABEL_Y: int := 56

  /** Every call lights one on-screen pixel. */
  ghost predicate OnScreenPixels(calls: seq<Call>) {
    forall k | 0 <= k < |calls| :: calls[k].PixelCall? && calls[k].color == 1 && OnScreen(calls[k].x, calls[k].y)
  }

  /** Every call sets a pixel. */
  ghost predicate PixelsOnly(calls: seq<Call>) {
    forall k | 0 <= k < |calls| :: calls[k].PixelCall?
  }

  lemma PixelsOnlyConcat(a: seq<Call>, b: seq<Call>)
    requires PixelsOnly(a) && PixelsOnly(b)
    ensures PixelsOnly(a + b)
  {
    forall k | 0 <= k < |a + b|
      ensures (a + b)[k].PixelCall?
    {
      if k < |a| {
        assert (a + b)[k] == a[k];
      } else {
        assert (a + b)[k] == b[k - |a|];
      }
    }
  }

  // ---------------------------------------------------------------- centring

  /** Top-left corner that centres a `width` x `height` frame: floor division,
      so an odd margin leaves the extra pixel on the right or bottom. */
  function CenterOffset(width: int, height: int): (off: (int, int))
    ensures 2 * off.0 + width <= DISPLAY_WIDTH < 2 * off.0 + width + 2
    ensures 2 * off.1 + height <= DISPLAY_HEIGHT < 2 * off.1 + height + 2
  {
    ((DISPLAY_WIDTH - width) / 2, (DISPLAY_HEIGHT - height) / 2)
  }

  lemma CenterOf32By32()
    ensures CenterOffset(32, 32) == (48, 16)
  {
  }

  // ----------------------------------------------------------------- bitmaps

  /** Pixel calls for bits `0 .. n-1` of one byte whose pixels start at
      column `col` of row `row` of a `width` x `height` bitmap drawn at (x, y). */
  function ByteCalls(width: int, height: int, row: int, col: int, b: Byte, x: int, y: int, n: nat): (calls: seq<Call>)
    requires n <= 8
  {
    if n == 0 then []
    else
      var bit := n - 1;
      ByteCalls(width, height, row, col, b, x, y, bit)
      + (if col + bit < width && row < height && Bit(b, bit) && OnScreen(x + col + bit, y + row)
         then [PixelCall(x + col + bit, y + row, 1)] else [])
  }

  /** Pixel calls for the first `n` bytes of `data`. */
  function BytesCalls(width: int, height: int, data: seq<Byte>, x: int, y: int, n: nat): (calls: seq<Call>)
    requires n <= |data| && (n == 0 || width > 0)
  {
    if n == 0 then []
    else
      var i := n - 1;
      BytesCalls(width, height, data, x, y, i)
      + ByteCalls(width, height, i / RowBytes(width), (i % RowBytes(width)) * 8, data[i], x, y, 8)
  }

  /** `_draw_bitmap(frame, x, y)`: nothing for empty data, else one call per lit, visible pixel. */
  function BitmapCalls(f: Frame, x: int, y: int): (calls: seq<Call>)
    requires f.Drawable()
    ensures |f.data| == 0 ==> calls == []
  {
    BytesCalls(f.width, f.height, f.data, x, y, |f.data|)
  }

  lemma {:induction false} ByteCallsOnScreen(width: int, height: int, row: int, col: int, b: Byte, x: int, y: int, n: nat)
    requires n <= 8
    ensures OnScreenPixels(ByteCalls(width, height, row, col, b, x, y, n))
  {
    if n > 0 {
      ByteCallsOnScreen(width, height, row, col, b, x, y, n - 1);
    }
  }

  lemma {:induction false} BytesCallsOnScreen(width: int, height: int, data: seq<Byte>, x: int, y: int, n: nat)
    requires n <= |data| && (n == 0 || width > 0)
    ensures OnScreenPixels(BytesCalls(width, height, data, x, y, n))
  {
    if n > 0 {
      var i := n - 1;
      BytesCallsOnScreen(width, height, data, x, y, i);
      ByteCallsOnScreen(width, height, i / RowBytes(width), (i % RowBytes(width)) * 8, data[i], x, y, 8);
    }
  }

  /** Every call `_draw_bitmap` makes sets one on-screen pixel to 1. */
  lemma BitmapCallsOnScreen(f: Frame, x: int, y: int)
    requires f.Drawable()
    ensures OnScreenPixels(BitmapCalls(f, x, y))
  {
    BytesCallsOnScreen(f.width, f.height, f.data, x, y, |f.data|);
  }

  /** Pixel (c, r) of a packed bitmap is lit: bit `c % 8` of byte `r * RowBytes(width) + c / 8`. */
  predicate BitAt(data: seq<Byte>, width: int, c: int, r: int)
    requires width > 0 && c >= 0 && r >= 0
  {
    BitBefore(data, |data|, width, c, r)
  }

  lemma {:induction false} ByteCallsPixel(width: int, height: int, row: int, col: int, b: Byte, x: int, y: int, n: nat,
                                          px: int, py: int, color: int)
    requires n <= 8
    ensures PixelCall(px, py, color) in ByteCalls(width, height, row, col, b, x, y, n)
            <==> color == 1 && OnScreen(px, py) && py == y + row && row < height
                 && col <= px - x < col + n && px - x < width && Bit(b, px - x - col)
  {
    if n > 0 {
      ByteCallsPixel(width, height, row, col, b, x, y, n - 1, px, py, color);
    }
  }

  /** Locating the byte and bit of pixel (c, r): they are those of byte `i`
      at bit `c - col` exactly when `c` lies in byte `i`'s eight columns. */
  lemma ByteOfPixel(width: int, i: int, c: int, r: int)
    requires width > 0 && i >= 0 && c >= 0 && r >= 0 && c < width
    ensures var rb := RowBytes(width);
            var col := (i % rb) * 8;
            (r == i / rb && col <= c < col + 8) <==> r * rb + c / 8 == i
    ensures var col := (i % RowBytes(width)) * 8;
            col <= c < col + 8 ==> c - col == c % 8
  {
    var rb := RowBytes(width);
    var col := (i % rb) * 8;
    assert i == (i / rb) * rb + i % rb;
    if col <= c < col + 8 {
      Arith.DivModUnique(i % rb, c - col, 8);
      assert c / 8 == i % rb && c % 8 == c - col;
    }
    if r * rb + c / 8 == i {
      assert c / 8 < rb;
      Arith.DivModUnique(r, c / 8, rb);
      assert i / rb == r && i % rb == c / 8;
    }
  }

  /** A pixel byte `i` lights is inside the bitmap, in byte `i`, at a set bit. */
  lemma BytePixelSound(width: int, height: int, data: seq<Byte>, x: int, y: int, i: nat, px: int, py: int, color: int)
    requires i < |data| && width > 0
    requires PixelCall(px, py, color) in ByteCalls(width, height, i / RowBytes(width), (i % RowBytes(width)) * 8, data[i], x, y, 8)
    ensures color == 1 && OnScreen(px, py) && 0 <= px - x < width && 0 <= py - y < height
            && (py - y) * RowBytes(width) + (px - x) / 8 == i
            && Bit(data[i], (px - x) % 8)
  {
    var c, r := px - x, py - y;
    var rb := RowBytes(width);
    var row, col := i / rb, (i % rb) * 8;
    Arith.DivNonNegative(i, rb);
    assert row >= 0 && col >= 0;
    ByteCallsPixel(width, height, row, col, data[i], x, y, 8, px, py, color);
    assert r == row && col <= c < col + 8 && c < width;
    ByteOfPixel(width, i, c, r);
  }

  /** Byte `i` lights every on-screen pixel of the bitmap that lies in byte `i` at a set bit. */
  lemma BytePixelComplete(width: int, height: int, data: seq<Byte>, x: int, y: int, i: nat, px: int, py: int, color: int)
    requires i < |data| && width > 0
    requires color == 1 && OnScreen(px, py) && 0 <= px - x < width && 0 <= py - y < height
             && (py - y) * RowBytes(width) + (px - x) / 8 == i
             && Bit(data[i], (px - x) % 8)
    ensures PixelCall(px, py, color) in ByteCalls(width, height, i / RowBytes(width), (i % RowBytes(width)) * 8, data[i], x, y, 8)
  {
    var c, r := px - x, py - y;
    var rb := RowBytes(width);
    var row, col := i / rb, (i % rb) * 8;
    ByteOfPixel(width, i, c, r);
    assert r == row && col <= c < col + 8 && c - col == c % 8;
    ByteCallsPixel(width, height, row, col, data[i], x, y, 8, px, py, color);
  }

  /** Byte `i` of the data lights (px, py) exactly when that pixel's byte is byte `i`. */
  lemma BytePixel(width: int, height: int, data: seq<Byte>, x: int, y: int, i: nat, px: int, py: int, color: int)
    requires i < |data| && width > 0
    ensures PixelCall(px, py, color) in ByteCalls(width, height, i / RowBytes(width), (i % RowBytes(width)) * 8, data[i], x, y, 8)
            <==> color == 1 && OnScreen(px, py) && 0 <= px - x < width && 0 <= py - y < height
                 && (py - y) * RowBytes(width) + (px - x) / 8 == i
                 && Bit(data[i], (px - x) % 8)
  {
    if PixelCall(px, py, color) in ByteCalls(width, height, i / RowBytes(width), (i % RowBytes(width)) * 8, data[i], x, y, 8) {
      BytePixelSound(width, height, data, x, y, i, px, py, color);
    }
    if color == 1 && OnScreen(px, py) && 0 <= px - x < width && 0 <= py - y < height
       && (py - y) * RowBytes(width) + (px - x) / 8 == i && Bit(data[i], (px - x) % 8) {
      BytePixelComplete(width, height, data, x, y, i, px, py, color);
    }
  }

  /** Pixel (c, r) is lit by one of the first `n` bytes of a packed bitmap. */
  predicate BitBefore(data: seq<Byte>, n: nat, width: int, c: int, r: int)
    requires n <= |data| && width > 0 && c >= 0 && r >= 0
  {
    var i := r * RowBytes(width) + c / 8;
    i < n && Bit(data[i], c % 8)
  }

  /** No byte: no pixel. One more byte: the pixels of that byte join in. */
  lemma BitBeforeStep(data: seq<Byte>, n: nat, width: int, c: int, r: int)
    requires n <= |data| && width > 0 && c >= 0 && r >= 0
    ensures n == 0 ==> !BitBefore(data, n, width, c, r)
    ensures n > 0 ==> (BitBefore(data, n, width, c, r)
                       <==> BitBefore(data, n - 1, width, c, r)
                            || (r * RowBytes(width) + c / 8 == n - 1 && Bit(data[n - 1], c % 8)))
  {
    Arith.MulNonNegative(r, RowBytes(width));
  }

  lemma {:induction false} BytesCallsPixel(width: int, height: int, data: seq<Byte>, x: int, y: int, n: nat,
                                           px: int, py: int, color: int)
    requires n <= |data| && width > 0
    ensures PixelCall(px, py, color) in BytesCalls(width, height, data, x, y, n)
            <==> color == 1 && OnScreen(px, py) && 0 <= px - x < width && 0 <= py - y < height
                 && BitBefore(data, n, width, px - x, py - y)
  {
    var c, r := px - x, py - y;
    if c >= 0 && r >= 0 {
      BitBeforeStep(data, n, width, c, r);
    }
    if n > 0 {
      var i := n - 1;
      var rb := RowBytes(width);
      var p := PixelCall(px, py, color);
      var before := BytesCalls(width, height, data, x, y, i);
      var last := ByteCalls(width, height, i / rb, (i % rb) * 8, data[i], x, y, 8);
      assert BytesCalls(width, height, data, x, y, n) == before + last;
      assert p in before + last <==> p in before || p in last;
      BytesCallsPixel(width, height, data, x, y, i, px, py, color);
      BytePixel(width, height, data, x, y, i, px, py, color);
    }
  }

  /** `_draw_bitmap` lights (px, py) exactly when it is on screen, inside the
      frame, and its bit is set; padding bits and bytes past `height` rows
      light nothing. */
  lemma BitmapPixel(f: Frame, x: int, y: int, px: int, py: int, color: int)
    requires f.Drawable()
    ensures PixelCall(px, py, color) in BitmapCalls(f, x, y)
            <==> color == 1 && OnScreen(px, py) && 0 <= px - x < f.width && 0 <= py - y < f.height
                 && BitAt(f.data, f.width, px - x, py - y)
  {
    if |f.data| > 0 {
      BytesCallsPixel(f.width, f.height, f.data, x, y, |f.data|, px, py, color);
    } else if 0 <= px - x < f.width && 0 <= py - y {
      Arith.MulNonNegative(py - y, RowBytes(f.width));
    }
  }

  // ------------------------------------------------------------------- icons

  /** Pixel calls for columns `0 .. n-1` of row `row` of an 8 x 8 icon at (x, y). */
  function IconRowCalls(pattern: seq<seq<bool>>, x: int, y: int, row: int, n: nat): seq<Call>
  {
    if n == 0 then []
    else
      var col := n - 1;
      IconRowCalls(pattern, x, y, row, col)
      + (if |pattern| > 0 && 0 <= row < |pattern| && col < |pattern[row]| && pattern[row][col] && OnScreen(x + col, y + row)
         then [PixelCall(x + col, y + row, 1)] else [])
  }

  /** Pixel calls for rows `0 .. n-1` of an icon at (x, y). */
  function IconRowsCalls(pattern: seq<seq<bool>>, x: int, y: int, n: nat): seq<Call>
  {
    if n == 0 then []
    else IconRowsCalls(pattern, x, y, n - 1) + IconRowCalls(pattern, x, y, n - 1, ICON_SIZE)
  }

  /** `_draw_signal_icon` / `_draw_contact_icon` at (x, y). */
  function IconCalls(pattern: seq<seq<bool>>, x: int, y: int): seq<Call>
  {
    IconRowsCalls(pattern, x, y, ICON_SIZE)
  }

  lemma {:induction false} IconRowOnScreen(pattern: seq<seq<bool>>, x: int, y: int, row: int, n: nat)
    ensures OnScreenPixels(IconRowCalls(pattern, x, y, row, n))
  {
    if n > 0 {
      IconRowOnScreen(pattern, x, y, row, n - 1);
    }
  }

  lemma {:induction false} IconRowsOnScreen(pattern: seq<seq<bool>>, x: int, y: int, n: nat)
    ensures OnScreenPixels(IconRowsCalls(pattern, x, y, n))
  {
    if n > 0 {
      IconRowsOnScreen(pattern, x, y, n - 1);
      IconRowOnScreen(pattern, x, y, n - 1, ICON_SIZE);
    }
  }

  /** Cell (c, r) of the pattern is set; rows and columns the pattern lacks are unset. */
  predicate IconBit(pattern: seq<seq<bool>>, c: int, r: int) {
    0 <= r < |pattern| && 0 <= c < |pattern[r]| && pattern[r][c]
  }

  lemma {:induction false} IconRowPixel(pattern: seq<seq<bool>>, x: int, y: int, row: int, n: nat, px: int, py: int, color: int)
    ensures PixelCall(px, py, color) in IconRowCalls(pattern, x, y, row, n)
            <==> color == 1 && OnScreen(px, py) && py == y + row && 0 <= px - x < n && IconBit(pattern, px - x, py - y)
  {
    if n > 0 {
      var col := n - 1;
      IconRowPixel(pattern, x, y, row, col, px, py, color);
      if px - x == col && py - y == row {
        assert IconBit(pattern, px - x, py - y) <==> |pattern| > 0 && 0 <= row < |pattern| && col < |pattern[row]| && pattern[row][col];
      }
    }
  }

  lemma {:induction false} IconRowsPixel(pattern: seq<seq<bool>>, x: int, y: int, n: nat, px: int, py: int, color: int)
    ensures PixelCall(px, py, color) in IconRowsCalls(pattern, x, y, n)
            <==> color == 1 && OnScreen(px, py) && 0 <= px - x < ICON_SIZE && 0 <= py - y < n && IconBit(pattern, px - x, py - y)
  {
    if n > 0 {
      var p := PixelCall(px, py, color);
      var before, last := IconRowsCalls(pattern, x, y, n - 1), IconRowCalls(pattern, x, y, n - 1, ICON_SIZE);
      assert p in IconRowsCalls(pattern, x, y, n) <==> p in before || p in last by {
        assert IconRowsCalls(pattern, x, y, n) == before + last;
      }
      IconRowsPixel(pattern, x, y, n - 1, px, py, color);
      IconRowPixel(pattern, x, y, n - 1, ICON_SIZE, px, py, color);
    }
  }

  /** An icon lights (px, py) exactly when it is on screen, within the 8 x 8
      square at (x, y), and set in the pattern (rows or columns the pattern
      lacks light nothing). */
  lemma IconPixel(pattern: seq<seq<bool>>, x: int, y: int, px: int, py: int, color: int)
    ensures PixelCall(px, py, color) in IconCalls(pattern, x, y)
            <==> color == 1 && OnScreen(px, py) && 0 <= px - x < ICON_SIZE && 0 <= py - y < ICON_SIZE
                 && py - y < |pattern| && px - x < |pattern[py - y]| && pattern[py - y][px - x]
  {
    IconRowsPixel(pattern, x, y, ICON_SIZE, px, py, color);
  }

  lemma {:induction false} IconRowsOffRight(pattern: seq<seq<bool>>, x: int, y: int, n: nat)
    requires x >= DISPLAY_WIDTH
    ensures IconRowsCalls(pattern, x, y, n) == []
  {
    if n > 0 {
      IconRowsOffRight(pattern, x, y, n - 1);
      IconRowOffRight(pattern, x, y, n - 1, ICON_SIZE);
    }
  }

  lemma {:induction false} IconRowOffRight(pattern: seq<seq<bool>>, x: int, y: int, row: int, n: nat)
    requires x >= DISPLAY_WIDTH
    ensures IconRowCalls(pattern, x, y, row, n) == []
  {
    if n > 0 {
      IconRowOffRight(pattern, x, y, row, n - 1);
    }
  }

  /** The contact icon is placed at x = DISPLAY_WIDTH, so every pixel is clipped. */
  lemma ContactIconClipped(pattern: seq<seq<bool>>)
    ensures RIGHT_X + BAR_WIDTH + 1 == DISPLAY_WIDTH
    ensures IconCalls(pattern, RIGHT_X + BAR_WIDTH + 1, BAR_Y) == []
  {
    IconRowsOffRight(pattern, DISPLAY_WIDTH, BAR_Y, ICON_SIZE);
  }

  // -------------------------------------------------------------------- bars

  /** One bar row: `n` pixels at columns `barX .. barX+n-1` of row `py`. */
  function BarRowCalls(barX: int, py: int, n: nat): (calls: seq<Call>)
    ensures |calls| == n
    ensures forall k | 0 <= k < n :: calls[k] == PixelCall(barX + k, py, 1)
  {
    if n == 0 then [] else BarRowCalls(barX, py, n - 1) + [PixelCall(barX + n - 1, py, 1)]
  }

  /** A bar of `filled` rows growing up from the bottom of the track at column `barX`. */
  function BarCalls(barX: int, filled: int): (calls: seq<Call>)
    ensures |calls| == if filled > 0 then filled * BAR_WIDTH else 0
    decreases filled
  {
    if filled <= 0 then []
    else
      var px := filled - 1;
      BarCalls(barX, px) + BarRowCalls(barX, BAR_Y + (BAR_HEIGHT - px - 1), BAR_WIDTH)
  }

  /** A bar lights exactly the rectangle of its 4 columns and its bottom `filled` rows. */
  lemma {:induction false} BarPixel(barX: int, filled: int, px: int, py: int, color: int)
    ensures PixelCall(px, py, color) in BarCalls(barX, filled)
            <==> color == 1 && barX <= px < barX + BAR_WIDTH
                 && BAR_Y + BAR_HEIGHT - filled <= py < BAR_Y + BAR_HEIGHT && filled > 0
    decreases filled
  {
    if filled > 0 {
      BarPixel(barX, filled - 1, px, py, color);
      var row := BarRowCalls(barX, BAR_Y + (BAR_HEIGHT - (filled - 1) - 1), BAR_WIDTH);
      if PixelCall(px, py, color) in row {
        var k :| 0 <= k < |row| && row[k] == PixelCall(px, py, color);
      }
      if color == 1 && barX <= px < barX + BAR_WIDTH && py == BAR_Y + BAR_HEIGHT - filled {
        assert row[px - barX] == PixelCall(px, py, color);
      }
    }
  }

  lemma {:induction false} BarCallsArePixels(barX: int, filled: int)
    ensures PixelsOnly(BarCalls(barX, filled))
    decreases filled
  {
    if filled > 0 {
      BarCallsArePixels(barX, filled - 1);
      var row := BarRowCalls(barX, BAR_Y + (BAR_HEIGHT - (filled - 1) - 1), BAR_WIDTH);
      assert PixelsOnly(row) by {
        forall k | 0 <= k < |row| ensures row[k].PixelCall? {
          assert row[k] == PixelCall(barX + k, BAR_Y + (BAR_HEIGHT - (filled - 1) - 1), 1);
        }
      }
      PixelsOnlyConcat(BarCalls(barX, filled - 1), row);
    }
  }

  /** `_draw_health_bars`: signal icon, wireless bar, contact icon, contact bar. */
  function HealthBarCalls(signalIcon: seq<seq<bool>>, contactIcon: seq<seq<bool>>, wirelessPixels: int, contactPixels: int): seq<Call>
  {
    IconCalls(signalIcon, LEFT_X - ICON_SIZE, BAR_Y)
    + BarCalls(LEFT_X, wirelessPixels)
    + IconCalls(contactIcon, RIGHT_X + BAR_WIDTH + 1, BAR_Y)
    + BarCalls(RIGHT_X, contactPixels)
  }

  // ------------------------------------------------------------------- frame

  function UpperChar(ch: char): char {
    if 'a' <= ch <= 'z' then (ch as int - 32) as char else ch
  }

  /** `str.upper()` on the ASCII letters: each lower-case letter becomes its
      capital, every other character is kept, and no lower-case letter is left. */
  function Upper(s: string): (u: string)
    ensures |u| == |s|
    ensures forall i | 0 <= i < |s| :: 'a' <= s[i] <= 'z' ==> u[i] as int == s[i] as int - 32
    ensures forall i | 0 <= i < |s| :: !('a' <= s[i] <= 'z') ==> u[i] == s[i]
    ensures forall i | 0 <= i < |u| :: !('a' <= u[i] <= 'z')
  {
    seq(|s|, i requires 0 <= i < |s| => UpperChar(s[i]))
  }

  /** Bar heights when a health system is present. */
  datatype Bars = NoBars | BarHeights(wireless: int, contact: int)

  /** The health-bar calls of a frame: none without a health system. */
  function BarsCalls(signalIcon: seq<seq<bool>>, contactIcon: seq<seq<bool>>, bars: Bars): seq<Call>
  {
    match bars
    case NoBars => []
    case BarHeights(w, c) => HealthBarCalls(signalIcon, contactIcon, w, c)
  }

  /** `draw_frame`: clear, the sprite centred, the bars if any, the label, flush. */
  function FrameCalls(sprite: Frame, stateName: string, signalIcon: seq<seq<bool>>, contactIcon: seq<seq<bool>>, bars: Bars): (calls: seq<Call>)
    requires sprite.Drawable()
  {
    var off := CenterOffset(sprite.width, sprite.height);
    [FillCall(0)]
    + BitmapCalls(sprite, off.0, off.1)
    + BarsCalls(signalIcon, contactIcon, bars)
    + [TextCall(Upper(stateName), LABEL_X, LABEL_Y, 1), ShowCall]
  }

  /** A frame starts by clearing the display and ends with the upper-case
      label and a flush. */
  lemma FrameCallsEnds(sprite: Frame, stateName: string, signalIcon: seq<seq<bool>>, contactIcon: seq<seq<bool>>, bars: Bars)
    requires sprite.Drawable()
    ensures var calls := FrameCalls(sprite, stateName, signalIcon, contactIcon, bars);
            && |calls| >= 3
            && calls[0] == FillCall(0)
            && calls[|calls| - 2] == TextCall(Upper(stateName), LABEL_X, LABEL_Y, 1)
            && calls[|calls| - 1] == ShowCall
  {
    var off := CenterOffset(sprite.width, sprite.height);
    var bitmap := BitmapCalls(sprite, off.0, off.1);
    var middle := BarsCalls(signalIcon, contactIcon, bars);
    var closing := [TextCall(Upper(stateName), LABEL_X, LABEL_Y, 1), ShowCall];
    assert FrameCalls(sprite, stateName, signalIcon, contactIcon, bars) == [FillCall(0)] + (bitmap + middle) + closing;
  }

  /** Between the clear and the label, a frame makes only pixel calls. */
  lemma FrameCallsShape(sprite: Frame, stateName: string, signalIcon: seq<seq<bool>>, contactIcon: seq<seq<bool>>, bars: Bars)
    requires sprite.Drawable()
    ensures var calls := FrameCalls(sprite, stateName, signalIcon, contactIcon, bars);
            forall k | 0 < k < |calls| - 2 :: calls[k].PixelCall?
  {
    var off := CenterOffset(sprite.width, sprite.height);
    var bitmap := BitmapCalls(sprite, off.0, off.1);
    BitmapCallsOnScreen(sprite, off.0, off.1);
    var middle := BarsCalls(signalIcon, contactIcon, bars);
    assert PixelsOnly(middle) by {
      match bars
      case NoBars =>
      case BarHeights(w, c) =>
        var leftIcon := IconCalls(signalIcon, LEFT_X - ICON_SIZE, BAR_Y);
        var rightIcon := IconCalls(contactIcon, RIGHT_X + BAR_WIDTH + 1, BAR_Y);
        IconRowsOnScreen(signalIcon, LEFT_X - ICON_SIZE, BAR_Y, ICON_SIZE);
        IconRowsOnScreen(contactIcon, RIGHT_X + BAR_WIDTH + 1, BAR_Y, ICON_SIZE);
        BarCallsArePixels(LEFT_X, w);
        BarCallsArePixels(RIGHT_X, c);
        PixelsOnlyConcat(leftIcon, BarCalls(LEFT_X, w));
        PixelsOnlyConcat(leftIcon + BarCalls(LEFT_X, w), rightIcon);
        PixelsOnlyConcat(leftIcon + BarCalls(LEFT_X, w) + rightIcon, BarCalls(RIGHT_X, c));
    }
    PixelsOnlyConcat(bitmap, middle);
    var calls := FrameCalls(sprite, stateName, signalIcon, contactIcon, bars);
    assert calls == [FillCall(0)] + (bitmap + middle) + [TextCall(Upper(stateName), LABEL_X, LABEL_Y, 1), ShowCall];
    forall k | 0 < k < |calls| - 2 ensures calls[k].PixelCall? {
      assert calls[k] == (bitmap + middle)[k - 1];
    }
  }
}

=== FILE: graphics.dfy ===
/** The rendering engine of graphics.py: a frame-interval gate on the
    animation clock, a dirty-flag redraw policy, and the drawing helpers that
    issue display calls, each proved to issue exactly the calls the
    Compositor functions describe. */
module Graphics {
  import opened Bits
  import opened Screen
  import opened Sprites
  import opened Compositor
  import opened Health

  /** The creature state the engine reads and advances; its owner sets the
      dirty flag. pet_state.py is not part of this model: the animation step
      is taken to add one to the frame index, wrap-around being left to the
      sprite store. */
  class PetState {
    var name: string
    var animationFrame: int
    var isDirty: bool

    function GetStateName(): string
      reads this
    {
      name
    }

    method UpdateAnimation()
      modifies this`animationFrame
      ensures animationFrame == old(animationFrame) + 1
    {
      animationFrame := animationFrame + 1;
    }

    method ResetDirtyFlag()
      modifies this`isDirty
      ensures !isDirty
    {
      isDirty := false;
    }
  }

  /** The bar heights `draw_frame` uses: none without a health system. */
  function BarsOf(health: HealthSystem?): Bars
    reads health
  {
    if health == null then NoBars
    else BarHeights(health.GetWirelessHealthPixels(BAR_HEIGHT), health.GetContactHealthPixels(BAR_HEIGHT))
  }

  class GraphicsEngine {
    const display: Display
    const spriteManager: SpriteManager
    /** The `pattern` of the first "signal_icon" / "contact_icon" asset; empty when absent. */
    const signalIcon: seq<seq<bool>>
    const contactIcon: seq<seq<bool>>
    /** ANIMATION_FRAME_MS from the configuration. */
    const animationFrameMs: real
    /** Clock reading (seconds) of the last animation advance. */
    var lastFrameTime: real
    var shouldUpdateFrame: bool

    constructor (display: Display, spriteData: map<string, seq<Frame>>, signalIcon: seq<seq<bool>>,
                 contactIcon: seq<seq<bool>>, animationFrameMs: real, now: real)
      ensures this.display == display && fresh(spriteManager) && spriteManager.sprites == spriteData
      ensures this.signalIcon == signalIcon && this.contactIcon == contactIcon
      ensures this.animationFrameMs == animationFrameMs
      ensures lastFrameTime == now && !shouldUpdateFrame
    {
      this.display := display;
      spriteManager := new SpriteManager(spriteData);
      this.signalIcon := signalIcon;
      this.contactIcon := contactIcon;
      this.animationFrameMs := animationFrameMs;
      lastFrameTime := now;
      shouldUpdateFrame := false;
    }

    /** One tick at clock reading `now`: decay health (always, when present),
        advance the animation when a frame interval has passed, and redraw
        only when the pet is dirty, which leaves it clean. */
    method Update(pet: PetState, health: HealthSystem?, now: real)
      requires pet.isDirty ==> spriteManager.CanDraw(pet.name)
      modifies this`lastFrameTime, pet`animationFrame, pet`isDirty, health, display`trace
      ensures health != null ==>
                && health.wirelessHealth == Decayed(now - health.lastWirelessUpdate, WIRELESS_TIMEOUT)
                && health.contactHealth == Decayed(now - health.lastContactUpdate, CONTACT_TIMEOUT)
                && health.lastWirelessUpdate == old(health.lastWirelessUpdate)
                && health.lastContactUpdate == old(health.lastContactUpdate)
      ensures (now - old(lastFrameTime)) * 1000.0 >= animationFrameMs ==>
                pet.animationFrame == old(pet.animationFrame) + 1 && lastFrameTime == now
      ensures (now - old(lastFrameTime)) * 1000.0 < animationFrameMs ==>
                pet.animationFrame == old(pet.animationFrame) && lastFrameTime == old(lastFrameTime)
      ensures !pet.isDirty
      ensures old(pet.isDirty) ==>
                display.trace == old(display.trace)
                  + FrameCalls(spriteManager.GetSprite(pet.name, pet.animationFrame), pet.name,
                               signalIcon, contactIcon, BarsOf(health))
      ensures !old(pet.isDirty) ==> display.trace == old(display.trace)
    {
      var currentTime := now;
      var elapsedMs := (currentTime - lastFrameTime) * 1000.0;

      if health != null {
        health.Update(currentTime);
      }

      if elapsedMs >= animationFrameMs {
        pet.UpdateAnimation();
        lastFrameTime := currentTime;
      }

      if pet.isDirty {
        DrawFrame(pet, health);
      }
    }

    /** Clears the display, draws the current sprite centred, the health bars
        when a health system is present, the upper-case state name, flushes,
        and clears the dirty flag. */
    method DrawFrame(pet: PetState, health: HealthSystem?)
      requires spriteManager.CanDraw(pet.name)
      modifies display`trace, pet`isDirty
      ensures display.trace == old(display.trace)
                + FrameCalls(spriteManager.GetSprite(pet.name, pet.animationFrame), pet.name,
                             signalIcon, contactIcon, BarsOf(health))
      ensures !pet.isDirty
    {
      ghost var t0 := display.trace;
      display.Fill(0);

      var stateName := pet.GetStateName();
      var frameIdx := pet.animationFrame;
      var spriteBitmap := spriteManager.GetSprite(stateName, frameIdx);

      var spriteWidth := spriteBitmap.width;
      var spriteHeight := spriteBitmap.height;
      var x := (DISPLAY_WIDTH - spriteWidth) / 2;
      var y := (DISPLAY_HEIGHT - spriteHeight) / 2;
      assert (x, y) == CenterOffset(spriteWidth, spriteHeight);
      DrawBitmap(spriteBitmap, x, y);
      ghost var drawn := [FillCall(0)] + BitmapCalls(spriteBitmap, x, y);
      AppendAssoc(t0, [FillCall(0)], BitmapCalls(spriteBitmap, x, y));

      ghost var bars := BarsCalls(signalIcon, contactIcon, BarsOf(health));
      if health != null {
        DrawHealthBars(health);
        AppendAssoc(t0, drawn, bars);
      }
      assert display.trace == t0 + (drawn + bars);
      drawn := drawn + bars;

      ghost var text, show := TextCall(Upper(stateName), LABEL_X, LABEL_Y, 1), ShowCall;
      display.Text(Upper(stateName), 0, 56, 1);
      display.Show();
      AppendAssoc(t0 + drawn, [text], [show]);
      assert [text] + [show] == [text, show];
      AppendAssoc(t0, drawn, [text, show]);
      assert FrameCalls(spriteBitmap, stateName, signalIcon, contactIcon, BarsOf(health)) == drawn + [text, show];
      pet.ResetDirtyFlag();
    }

    /** Signal icon and wireless bar on the left, contact icon and contact bar
        on the right, the bars 32 pixels tall and filled from the bottom. */
    method DrawHealthBars(health: HealthSystem)
      modifies display`trace
      ensures display.trace == old(display.trace)
                + HealthBarCalls(signalIcon, contactIcon, health.GetWirelessHealthPixels(BAR_HEIGHT),
                                 health.GetContactHealthPixels(BAR_HEIGHT))
    {
      ghost var t0 := display.trace;
      var barWidth := 4;
      var barHeight := 32;
      var barY := (DISPLAY_HEIGHT - barHeight) / 2;
      assert barY == BAR_Y;

      var leftX := 1;
      DrawSignalIcon(leftX - 8, barY);
      ghost var drawn := IconCalls(signalIcon, LEFT_X - ICON_SIZE, BAR_Y);
      var wirelessPixels := health.GetWirelessHealthPixels(barHeight);
      ghost var bar := BarCalls(LEFT_X, wirelessPixels);
      if wirelessPixels > 0 {
        DrawBar(leftX, wirelessPixels);
      } else {
        assert (t0 + drawn) + bar == t0 + drawn;
      }
      AppendAssoc(t0, drawn, bar);
      drawn := drawn + bar;

      var rightX := DISPLAY_WIDTH - barWidth - 1;
      assert rightX == RIGHT_X;
      DrawContactIcon(rightX + barWidth + 1, barY);
      ghost var icon := IconCalls(contactIcon, RIGHT_X + BAR_WIDTH + 1, BAR_Y);
      AppendAssoc(t0, drawn, icon);
      drawn := drawn + icon;
      var contactPixels := health.GetContactHealthPixels(barHeight);
      bar := BarCalls(RIGHT_X, contactPixels);
      if contactPixels > 0 {
        DrawBar(rightX, contactPixels);
      } else {
        assert (t0 + drawn) + bar == t0 + drawn;
      }
      AppendAssoc(t0, drawn, bar);
    }

    /** The fill loop both bars share: `filled` rows up from the bottom of the
        track, each row `BAR_WIDTH` pixels from column `barX`. */
    method DrawBar(barX: int, filled: int)
      modifies display`trace
      ensures display.trace == old(display.trace) + BarCalls(barX, filled)
    {
      var px := 0;
      while px < filled
        invariant 0 <= px <= if filled > 0 then filled else 0
        invariant display.trace == old(display.trace) + BarCalls(barX, px)
      {
        var py := 0;
        while py < BAR_WIDTH
          invariant 0 <= py <= BAR_WIDTH
          invariant display.trace == old(display.trace) + BarCalls(barX, px)
                      + BarRowCalls(barX, BAR_Y + (BAR_HEIGHT - px - 1), py)
        {
          display.Pixel(barX + py, BAR_Y + (BAR_HEIGHT - px - 1), 1);
          py := py + 1;
        }
        px := px + 1;
      }
    }

    method DrawSignalIcon(x: int, y: int)
      modifies display`trace
      ensures display.trace == old(display.trace) + IconCalls(signalIcon, x, y)
    {
      DrawIcon(signalIcon, x, y);
    }

    method DrawContactIcon(x: int, y: int)
      modifies display`trace
      ensures display.trace == old(display.trace) + IconCalls(contactIcon, x, y)
    {
      DrawIcon(contactIcon, x, y);
    }

    /** The 8 x 8 icon loop both icon helpers share, clipped to the display. */
    method DrawIcon(pattern: seq<seq<bool>>, x: int, y: int)
      modifies display`trace
      ensures display.trace == old(display.trace) + IconCalls(pattern, x, y)
    {
      var row := 0;
      while row < 8
        invariant 0 <= row <= 8
        invariant display.trace == old(display.trace) + IconRowsCalls(pattern, x, y, row)
      {
        var col := 0;
        while col < 8
          invariant 0 <= col <= 8
          invariant display.trace == old(display.trace) + IconRowsCalls(pattern, x, y, row)
                      + IconRowCalls(pattern, x, y, row, col)
        {
          if |pattern| > 0 && row < |pattern| && col < |pattern[row]| {
            if pattern[row][col] {
              var px := x + col;
              var py := y + row;
              if 0 <= px < DISPLAY_WIDTH && 0 <= py < DISPLAY_HEIGHT {
                display.Pixel(px, py, 1);
              }
            }
          }
          col := col + 1;
        }
        row := row + 1;
      }
    }

    /** Unpacks a frame at (x, y): byte by byte, least significant bit first,
        skipping padding bits, rows past the height and pixels off the display. */
    method DrawBitmap(bitmap: Frame, x: int, y: int)
      requires bitmap.Drawable()
      modifies display`trace
      ensures display.trace == old(display.trace) + BitmapCalls(bitmap, x, y)
    {
      var width := bitmap.width;
      var height := bitmap.height;
      var data := bitmap.data;

      if |data| == 0 {
        return;
      }

      ghost var t0 := display.trace;
      var byteIdx := 0;
      while byteIdx < |data|
        invariant 0 <= byteIdx <= |data|
        invariant display.trace == t0 + BytesCalls(width, height, data, x, y, byteIdx)
      {
        var byteVal := data[byteIdx];
        var row := byteIdx / RowBytes(width);
        var col := (byteIdx % RowBytes(width)) * 8;
        ghost var before := BytesCalls(width, height, data, x, y, byteIdx);
        DrawByte(width, height, row, col, byteVal, x, y);
        ghost var bits := ByteCalls(width, height, row, col, byteVal, x, y, 8);
        assert display.trace == t0 + (before + bits);
        assert BytesCalls(width, height, data, x, y, byteIdx + 1) == before + bits;
        byteIdx := byteIdx + 1;
      }
    }

    /** The bit loop of the unpacker for one byte whose pixels start at
        column `col` of row `row`. */
    method DrawByte(width: int, height: int, row: int, col: int, byteVal: Byte, x: int, y: int)
      modifies display`trace
      ensures display.trace == old(display.trace) + ByteCalls(width, height, row, col, byteVal, x, y, 8)
    {
      var bit := 0;
      while bit < 8
        invariant 0 <= bit <= 8
        invariant display.trace == old(display.trace) + ByteCalls(width, height, row, col, byteVal, x, y, bit)
      {
        if col + bit < width && row < height {
          if byteVal & Mask(bit) != 0 {
            var px := x + col + bit;
            var py := y + row;
            if 0 <= px < DISPLAY_WIDTH && 0 <= py < DISPLAY_HEIGHT {
              display.Pixel(px, py, 1);
            }
          }
        }
        bit := bit + 1;
      }
    }
  }
}

=== FILE: health.dfy ===
/** The health decay model of health_system.py: two independent channels,
    wireless and contact, each a value recomputed from the time elapsed since
    its last reset event. The clock is a parameter (`now`, in seconds). */
module Health {

  /** Seconds without a wireless sync after which wireless health is 0. */
  const WIRELESS_TIMEOUT: real := 10.0
  /** Seconds without physical contact after which contact health is 0. */
  const CONTACT_TIMEOUT: real := 30.0
  /** The value a channel is reset to. */
  const FULL: real := 100.0

  /** `max(0, 100 - elapsed / timeout * 100)`: linear decay clamped at zero. */
  function Decayed(elapsed: real, timeout: real): (h: real)
    requires timeout > 0.0
    ensures h >= 0.0
    ensures elapsed >= 0.0 ==> h <= FULL
    ensures elapsed == 0.0 ==> h == FULL
    ensures h == 0.0 <==> elapsed >= timeout
    ensures elapsed < timeout ==> h == FULL * (1.0 - elapsed / timeout)
  {
    var v := FULL - elapsed / timeout * FULL;
    if v > 0.0 then v else 0.0
  }

  /** Python's `int()` on a number: truncation toward zero. */
  function Trunc(r: real): (t: int)
    ensures r >= 0.0 ==> t >= 0 && t as real <= r < t as real + 1.0
    ensures r < 0.0 ==> t <= 0 && t as real - 1.0 < r <= t as real
  {
    if r >= 0.0 then r.Floor else -((-r).Floor)
  }

  /** `int(health)`, the percent getters. */
  function Percent(h: real): (p: int)
    ensures 0.0 <= h <= FULL ==> 0 <= p <= 100
    ensures h >= 0.0 ==> p as real <= h < p as real + 1.0
  {
    Trunc(h)
  }

  /** `int((health / 100.0) * max_height)`, the pixel getters. */
  function PixelHeight(h: real, maxHeight: int): (p: int)
    ensures h >= 0.0 && maxHeight >= 0 ==> p as real <= h / FULL * maxHeight as real < p as real + 1.0
  {
    var r := h / FULL * maxHeight as real;
    assert h >= 0.0 && maxHeight >= 0 ==> r >= 0.0;
    Trunc(r)
  }

  /** A health value within 0..100 gives a bar within `0 .. max_height`. */
  lemma PixelHeightBounds(h: real, maxHeight: int)
    requires 0.0 <= h <= FULL && maxHeight >= 0
    ensures 0 <= PixelHeight(h, maxHeight) <= maxHeight
  {
    var m := maxHeight as real;
    var q := h / FULL;
    FractionOfBar(q, m);
    FloorWithin(PixelHeight(h, maxHeight), q * m, maxHeight);
  }

  /** A fraction within 0..1 of a non-negative height stays within 0 .. height. */
  lemma FractionOfBar(q: real, m: real)
    requires 0.0 <= q <= 1.0 && 0.0 <= m
    ensures 0.0 <= q * m <= m
  {
    assert m - q * m == (1.0 - q) * m;
  }

  /** The floor of a value within 0 .. m is within 0 .. m. */
  lemma FloorWithin(p: int, r: real, m: int)
    requires p as real <= r < p as real + 1.0
    requires 0.0 <= r <= m as real
    ensures 0 <= p <= m
  {
  }

  /** Full health fills the whole bar. */
  lemma PixelHeightFull(maxHeight: int)
    ensures PixelHeight(FULL, maxHeight) == maxHeight
  {
    assert FULL / FULL == 1.0;
  }

  /** Decay never increases with elapsed time. */
  lemma DecayedAntitone(e1: real, e2: real, timeout: real)
    requires timeout > 0.0
    requires e1 <= e2
    ensures Decayed(e2, timeout) <= Decayed(e1, timeout)
  {
    assert e1 / timeout <= e2 / timeout by {
      assert e2 / timeout - e1 / timeout == (e2 - e1) / timeout;
    }
  }

  /** Half the timeout leaves exactly half the health: percent 50. */
  lemma HalfTimeoutIsHalfHealth(timeout: real)
    requires timeout > 0.0
    ensures Decayed(timeout / 2.0, timeout) == 50.0
    ensures Percent(Decayed(timeout / 2.0, timeout)) == 50
  {
    assert (timeout / 2.0) / timeout == 0.5;
  }

  /** Truncation is monotone. */
  lemma TruncMonotone(r1: real, r2: real)
    requires 0.0 <= r1 <= r2
    ensures Trunc(r1) <= Trunc(r2)
  {
  }

  /** The pixel height is monotone non-decreasing in the health value. */
  lemma PixelHeightMonotone(h1: real, h2: real, maxHeight: int)
    requires 0.0 <= h1 <= h2
    requires maxHeight >= 0
    ensures PixelHeight(h1, maxHeight) <= PixelHeight(h2, maxHeight)
  {
    var m := maxHeight as real;
    var r1, r2 := h1 / FULL * m, h2 / FULL * m;
    assert r2 - r1 == (h2 - h1) / FULL * m;
    assert 0.0 <= r1 <= r2;
    TruncMonotone(r1, r2);
  }

  /** The two bar heights of a fresh wireless reset and of a contact reset 15
      seconds ago, on 32-pixel bars: 32 and 16. */
  lemma FullAndHalfBars()
    ensures PixelHeight(Decayed(0.0, WIRELESS_TIMEOUT), 32) == 32
    ensures PixelHeight(Decayed(15.0, CONTACT_TIMEOUT), 32) == 16
  {
  }

  class HealthSystem {
    var wirelessHealth: real
    var contactHealth: real
    var lastWirelessUpdate: real
    var lastContactUpdate: real

    /** Both channels start full, timestamped at `now`. */
    constructor (now: real)
      ensures wirelessHealth == FULL && contactHealth == FULL
      ensures lastWirelessUpdate == now && lastContactUpdate == now
    {
      wirelessHealth := FULL;
      contactHealth := FULL;
      lastWirelessUpdate := now;
      lastContactUpdate := now;
    }

    /** A received wireless packet resets the wireless channel only. */
    method OnWirelessSync(now: real)
      modifies this`wirelessHealth, this`lastWirelessUpdate
      ensures wirelessHealth == FULL && lastWirelessUpdate == now
      ensures Percent(wirelessHealth) == 100
    {
      wirelessHealth := FULL;
      lastWirelessUpdate := now;
    }

    /** A detected contact pulse resets the contact channel only. */
    method OnPhysicalContact(now: real)
      modifies this`contactHealth, this`lastContactUpdate
      ensures contactHealth == FULL && lastContactUpdate == now
      ensures Percent(contactHealth) == 100
    {
      contactHealth := FULL;
      lastContactUpdate := now;
    }

    /** Recomputes both values from the time since each channel's last event;
        the timestamps are left alone, so a second call at the same clock
        reading computes the same values. */
    method Update(now: real)
      modifies this`wirelessHealth, this`contactHealth
      ensures wirelessHealth == Decayed(now - lastWirelessUpdate, WIRELESS_TIMEOUT)
      ensures contactHealth == Decayed(now - lastContactUpdate, CONTACT_TIMEOUT)
      ensures now >= lastWirelessUpdate ==> 0.0 <= wirelessHealth <= FULL
      ensures now >= lastContactUpdate ==> 0.0 <= contactHealth <= FULL
    {
      var wirelessElapsed := now - lastWirelessUpdate;
      wirelessHealth := Decayed(wirelessElapsed, WIRELESS_TIMEOUT);
      var contactElapsed := now - lastContactUpdate;
      contactHealth := Decayed(contactElapsed, CONTACT_TIMEOUT);
    }

    function GetWirelessHealthPercent(): (p: int)
      reads this
      ensures 0.0 <= wirelessHealth <= FULL ==> 0 <= p <= 100
      ensures wirelessHealth >= 0.0 ==> p as real <= wirelessHealth < p as real + 1.0
    {
      Percent(wirelessHealth)
    }

    function GetContactHealthPercent(): (p: int)
      reads this
      ensures 0.0 <= contactHealth <= FULL ==> 0 <= p <= 100
      ensures contactHealth >= 0.0 ==> p as real <= contactHealth < p as real + 1.0
    {
      Percent(contactHealth)
    }

    function GetWirelessHealthPixels(maxHeight: int): (p: int)
      reads this
      ensures 0.0 <= wirelessHealth <= FULL && maxHeight >= 0 ==> 0 <= p <= maxHeight
      ensures wirelessHealth >= 0.0 && maxHeight >= 0 ==> p as real <= wirelessHealth / FULL * maxHeight as real < p as real + 1.0
    {
      if 0.0 <= wirelessHealth <= FULL && maxHeight >= 0 then
        PixelHeightBounds(wirelessHealth, maxHeight);
        PixelHeight(wirelessHealth, maxHeight)
      else
        PixelHeight(wirelessHealth, maxHeight)
    }

    function GetContactHealthPixels(maxHeight: int): (p: int)
      reads this
      ensures 0.0 <= contactHealth <= FULL && maxHeight >= 0 ==> 0 <= p <= maxHeight
      ensures contactHealth >= 0.0 && maxHeight >= 0 ==> p as real <= contactHealth / FULL * maxHeight as real < p as real + 1.0
    {
      if 0.0 <= contactHealth <= FULL && maxHeight >= 0 then
        PixelHeightBounds(contactHealth, maxHeight);
        PixelHeight(contactHealth, maxHeight)
      else
        PixelHeight(contactHealth, maxHeight)
    }
  }

  /** Updating twice at one clock reading: the second call finds the values
      the first one computed and leaves them as they are. */
  method UpdateTwice(h: HealthSystem, now: real) returns (wireless: real, contact: real)
    modifies h
    ensures wireless == h.wirelessHealth && contact == h.contactHealth
    ensures wireless == Decayed(now - old(h.lastWirelessUpdate), WIRELESS_TIMEOUT)
    ensures contact == Decayed(now - old(h.lastContactUpdate), CONTACT_TIMEOUT)
  {
    h.Update(now);
    wireless, contact := h.wirelessHealth, h.contactHealth;
    h.Update(now);
  }

  /** Between resets, with a clock that does not go backwards, neither value
      rises: `wireless` and `contact` are the values after the update at `t1`. */
  method DecayBetweenResets(h: HealthSystem, t1: real, t2: real) returns (wireless: real, contact: real)
    requires t1 <= t2
    modifies h
    ensures h.wirelessHealth <= wireless && h.contactHealth <= contact
    ensures wireless == Decayed(t1 - old(h.lastWirelessUpdate), WIRELESS_TIMEOUT)
    ensures contact == Decayed(t1 - old(h.lastContactUpdate), CONTACT_TIMEOUT)
  {
    h.Update(t1);
    wireless, contact := h.wirelessHealth, h.contactHealth;
    h.Update(t2);
    DecayedAntitone(t1 - h.lastWirelessUpdate, t2 - h.lastWirelessUpdate, WIRELESS_TIMEOUT);
    DecayedAntitone(t1 - h.lastContactUpdate, t2 - h.lastContactUpdate, CONTACT_TIMEOUT);
  }
}

=== FILE: packer.dfy ===
/** The byte-packing loop of tools/png_to_bitmap.py: a `width` x `height`
    grayscale image becomes `RowBytes(width)` bytes per row, eight pixels per
    byte, least significant bit first, a pixel brighter than 127 giving a set
    bit. Packing followed by the graphics engine's unpacker gives back exactly
    the bright pixels. */
module Packer {
  import opened Bits
  import opened Screen
  import opened Sprites
  import opened Compositor
  import Arith

  /** The image after loading and resizing: `pixels(x, y)` is a luminance 0..255. */
  type Image = (int, int) -> int

  /** Threshold at the luminance midpoint: the pixel is on. */
  predicate Bright(pixels: Image, x: int, y: int) {
    pixels(x, y) > 127
  }

  /** Bits `0 .. n-1` of the byte packing pixels `x .. x+7` of row `y`. */
  function PackedByte(pixels: Image, width: nat, x: int, y: int, n: nat): Byte
    requires n <= 8
  {
    if n == 0 then 0
    else
      var bit := n - 1;
      var before := PackedByte(pixels, width, x, y, bit);
      if x + bit < width && Bright(pixels, x + bit, y) then before | Mask(bit) else before
  }

  /** Row `y` of the packed image, one byte per eight columns. */
  function PackedRow(pixels: Image, width: nat, y: int): (row: seq<Byte>)
    ensures |row| == RowBytes(width)
  {
    seq(RowBytes(width), k => PackedByte(pixels, width, 8 * k, y, 8))
  }

  /** The first `rows` rows of the packed image. */
  function Packed(pixels: Image, width: nat, rows: nat): seq<Byte>
  {
    if rows == 0 then [] else Packed(pixels, width, rows - 1) + PackedRow(pixels, width, rows - 1)
  }

  /** Bit `k` of a packed byte is set exactly when pixel `x + k` is inside the
      image and bright; in particular padding bits past the width are 0. */
  lemma {:induction false} PackedByteBit(pixels: Image, width: nat, x: int, y: int, n: nat, k: nat)
    requires n <= 8 && k < 8
    ensures Bit(PackedByte(pixels, width, x, y, n), k) <==> k < n && x + k < width && Bright(pixels, x + k, y)
  {
    if n == 0 {
      NoBitOfZero(k);
    } else {
      var bit := n - 1;
      var before := PackedByte(pixels, width, x, y, bit);
      PackedByteBit(pixels, width, x, y, bit, k);
      if x + bit < width && Bright(pixels, x + bit, y) {
        assert PackedByte(pixels, width, x, y, n) == before | Mask(bit);
        SetBit(before, bit, k);
      } else {
        assert PackedByte(pixels, width, x, y, n) == before;
      }
    }
  }

  /** The packed image has `rows * RowBytes(width)` bytes. */
  lemma {:induction false} PackedLength(pixels: Image, width: nat, rows: nat)
    ensures |Packed(pixels, width, rows)| == rows * RowBytes(width)
  {
    if rows > 0 {
      PackedLength(pixels, width, rows - 1);
      assert (rows - 1) * RowBytes(width) + RowBytes(width) == rows * RowBytes(width);
    }
  }

  /** Byte `bx` of row `r` sits at index `r * RowBytes(width) + bx`. */
  lemma {:induction false} PackedAt(pixels: Image, width: nat, rows: nat, r: nat, bx: nat)
    requires r < rows && bx < RowBytes(width)
    ensures r * RowBytes(width) + bx < |Packed(pixels, width, rows)|
    ensures Packed(pixels, width, rows)[r * RowBytes(width) + bx] == PackedByte(pixels, width, 8 * bx, r, 8)
  {
    var rb := RowBytes(width);
    PackedLength(pixels, width, rows - 1);
    PackedLength(pixels, width, rows);
    if r < rows - 1 {
      PackedAt(pixels, width, rows - 1, r, bx);
    } else {
      assert r * rb + bx == |Packed(pixels, width, rows - 1)| + bx;
    }
  }

  /** Bit `b` of byte `y * RowBytes(width) + bx` is set exactly when column
      `8 * bx + b` is inside the image and bright. */
  lemma PackedBit(pixels: Image, width: nat, height: nat, y: nat, bx: nat, b: nat)
    requires y < height && bx < RowBytes(width) && b < 8
    ensures y * RowBytes(width) + bx < |Packed(pixels, width, height)|
    ensures Bit(Packed(pixels, width, height)[y * RowBytes(width) + bx], b)
            <==> 8 * bx + b < width && Bright(pixels, 8 * bx + b, y)
  {
    PackedAt(pixels, width, height, y, bx);
    PackedByteBit(pixels, width, 8 * bx, y, 8, b);
  }

  /** The innermost loop of `png_to_bitmap`: one byte from pixels `x .. x+7` of row `y`. */
  method PackByte(pixels: Image, width: nat, x: int, y: int) returns (byteVal: Byte)
    ensures byteVal == PackedByte(pixels, width, x, y, 8)
  {
    byteVal := 0;
    var bit := 0;
    while bit < 8
      invariant 0 <= bit <= 8
      invariant byteVal == PackedByte(pixels, width, x, y, bit)
    {
      if x + bit < width {
        var pixel := pixels(x + bit, y);
        if pixel > 127 {
          byteVal := byteVal | Mask(bit);
        }
      }
      bit := bit + 1;
    }
  }

  /** `png_to_bitmap`'s loop: row by row, eight columns at a time, bit by bit. */
  method PngToBitmap(pixels: Image, width: nat, height: nat) returns (bitmapData: seq<Byte>)
    ensures bitmapData == Packed(pixels, width, height)
    ensures |bitmapData| == height * RowBytes(width)
  {
    bitmapData := [];
    var y := 0;
    while y < height
      invariant 0 <= y <= height
      invariant bitmapData == Packed(pixels, width, y)
    {
      var x := 0;
      while x < width
        invariant 0 <= x <= 8 * RowBytes(width) && x % 8 == 0
        invariant bitmapData == Packed(pixels, width, y) + PackedRow(pixels, width, y)[..x / 8]
      {
        var byteVal := PackByte(pixels, width, x, y);
        assert PackedRow(pixels, width, y)[..x / 8 + 1] == PackedRow(pixels, width, y)[..x / 8] + [byteVal];
        bitmapData := bitmapData + [byteVal];
        x := x + 8;
      }
      assert x / 8 == RowBytes(width);
      assert PackedRow(pixels, width, y)[..x / 8] == PackedRow(pixels, width, y);
      y := y + 1;
    }
    PackedLength(pixels, width, height);
  }

  /** Pixel (c, r) of the packed image, read back the way the unpacker reads it, is the bright test. */
  lemma PackedBitAt(pixels: Image, width: nat, height: nat, c: nat, r: nat)
    requires c < width && r < height
    ensures BitAt(Packed(pixels, width, height), width, c, r) <==> Bright(pixels, c, r)
  {
    var rb := RowBytes(width);
    assert c / 8 < rb;
    PackedBit(pixels, width, height, r, c / 8, c % 8);
    assert 8 * (c / 8) + c % 8 == c;
  }

  /** A packed image is a frame the engine can draw: no bytes at all when the width is 0. */
  lemma PackedDrawable(pixels: Image, width: nat, height: nat)
    ensures Frame(width, height, Packed(pixels, width, height)).Drawable()
  {
    PackedLength(pixels, width, height);
    if width == 0 {
      assert RowBytes(width) == 0;
    }
  }

  /** Round trip: packing an image and drawing the packed frame at (x, y)
      lights exactly the bright pixels of the image that land on the display,
      whether or not the width is a multiple of 8. */
  lemma RoundTrip(pixels: Image, width: nat, height: nat, x: int, y: int, px: int, py: int, color: int)
    ensures Frame(width, height, Packed(pixels, width, height)).Drawable()
    ensures PixelCall(px, py, color) in BitmapCalls(Frame(width, height, Packed(pixels, width, height)), x, y)
            <==> color == 1 && OnScreen(px, py) && 0 <= px - x < width && 0 <= py - y < height
                 && Bright(pixels, px - x, py - y)
  {
    var f := Frame(width, height, Packed(pixels, width, height));
    PackedDrawable(pixels, width, height);
    BitmapPixel(f, x, y, px, py, color);
    if 0 <= px - x < width && 0 <= py - y < height {
      PackedBitAt(pixels, width, height, px - x, py - y);
    }
  }

  /** With the whole image on the display, drawing the packed frame lights
      every bright pixel and nothing else. */
  lemma RoundTripOnScreen(pixels: Image, width: nat, height: nat, x: int, y: int, c: int, r: int)
    requires 0 <= x && x + width <= DISPLAY_WIDTH && 0 <= y && y + height <= DISPLAY_HEIGHT
    requires 0 <= c < width && 0 <= r < height
    ensures PixelCall(x + c, y + r, 1) in BitmapCalls(Frame(width, height, Packed(pixels, width, height)), x, y)
            <==> Bright(pixels, c, r)
  {
    assert OnScreen(x + c, y + r);
    RoundTrip(pixels, width, height, x, y, x + c, y + r, 1);
  }
}

=== FILE: screen.dfy ===
/** The display capability the graphics engine draws on (an SSD1306 driver in
    the device). The model keeps the sequence of calls the display receives. */
module Screen {

  const DISPLAY_WIDTH: int := 128
  const DISPLAY_HEIGHT: int := 64

  datatype Call =
    | FillCall(color: int)
    | PixelCall(x: int, y: int, color: int)
    | TextCall(s: string, x: int, y: int, color: int)
    | ShowCall

  /** Appending in two steps is appending the concatenation. */
  lemma AppendAssoc(a: seq<Call>, b: seq<Call>, c: seq<Call>)
    ensures (a + b) + c == a + (b + c)
  {
  }

  predicate OnScreen(x: int, y: int) {
    0 <= x < DISPLAY_WIDTH && 0 <= y < DISPLAY_HEIGHT
  }

  class Display {
    /** Every call received so far, oldest first. */
    var trace: seq<Call>

    constructor ()
      ensures trace == []
    {
      trace := [];
    }

    method Fill(color: int)
      modifies this`trace
      ensures trace == old(trace) + [FillCall(color)]
    {
      trace := trace + [FillCall(color)];
    }

    method Pixel(x: int, y: int, color: int)
      modifies this`trace
      ensures trace == old(trace) + [PixelCall(x, y, color)]
    {
      trace := trace + [PixelCall(x, y, color)];
    }

    method Text(s: string, x: int, y: int, color: int)
      modifies this`trace
      ensures trace == old(trace) + [TextCall(s, x, y, color)]
    {
      trace := trace + [TextCall(s, x, y, color)];
    }

    method Show()
      modifies this`trace
      ensures trace == old(trace) + [ShowCall]
    {
      trace := trace + [ShowCall];
    }
  }
}

=== FILE: sprites.dfy ===
/** The sprite store of sprites/sprite_manager.py: a table from creature-state
    name to a cyclic sequence of packed monochrome frames. */
module Sprites {
  import opened Bits
  import Arith

  /** One packed frame: `width` x `height` pixels, `RowBytes(width)` bytes per row. */
  datatype Frame = Frame(width: int, height: int, data: seq<Byte>) {
    /** The unpacker divides by `RowBytes(width)` once there is any data. */
    predicate Drawable() {
      |data| == 0 || width > 0
    }
  }

  /** What `add_custom_sprite` accepts: a list of frames or one frame. */
  datatype FramesArg = FrameList(frames: seq<Frame>) | SingleFrame(frame: Frame)

  /** `_get_placeholder_sprite`, the fallback for an unknown state: 32 x 32, every pixel lit. */
  function Placeholder(): (f: Frame)
    ensures f.width == 32 && f.height == 32 && |f.data| == 128
    ensures |f.data| == RowBytes(f.width) * f.height
    ensures forall i | 0 <= i < |f.data| :: f.data[i] == 0xFF
    ensures f.Drawable()
  {
    Frame(32, 32, seq(128, _ => 0xFF))
  }

  /** Every pixel of the placeholder is lit. */
  lemma PlaceholderAllLit(r: nat, c: nat)
    requires r < 32 && c < 32
    ensures r * RowBytes(32) + c / 8 < |Placeholder().data|
    ensures Bit(Placeholder().data[r * RowBytes(32) + c / 8], c % 8)
  {
    AllBitsOfFF(c % 8);
  }

  class SpriteManager {
    var sprites: map<string, seq<Frame>>

    /** The state table every lookup can use: no empty frame list, every frame drawable. */
    ghost predicate Valid()
      reads this
    {
      forall s | s in sprites :: |sprites[s]| > 0 && forall f | f in sprites[s] :: f.Drawable()
    }

    constructor (table: map<string, seq<Frame>>)
      ensures sprites == table
    {
      sprites := table;
    }

    /** The lookup does not divide by zero: the state is unknown or has frames. */
    predicate CanGet(stateName: string)
      reads this
    {
      stateName !in sprites || |sprites[stateName]| > 0
    }

    /** The current frame of this state can be drawn: the lookup does not
        divide by zero, and every frame the state may cycle to is drawable. */
    predicate CanDraw(stateName: string)
      reads this
    {
      CanGet(stateName) && (stateName in sprites ==> forall f | f in sprites[stateName] :: f.Drawable())
    }

    /** The frame for a state and animation index: the placeholder for an
        unknown state, otherwise the index taken modulo the number of frames. */
    function GetSprite(stateName: string, frameIdx: int): (f: Frame)
      reads this
      requires CanGet(stateName)
      ensures stateName !in sprites ==> f == Placeholder()
      ensures stateName in sprites ==> f in sprites[stateName]
      ensures stateName in sprites && 0 <= frameIdx < |sprites[stateName]| ==> f == sprites[stateName][frameIdx]
      ensures Valid() ==> f.Drawable()
      ensures CanDraw(stateName) ==> f.Drawable()
    {
      if stateName !in sprites then
        Placeholder()
      else
        var stateSprites := sprites[stateName];
        stateSprites[frameIdx % |stateSprites|]
    }

    /** Registers a state's frames, replacing whatever it had; a single frame
        becomes a one-frame list. No other state changes. */
    method AddCustomSprite(stateName: string, frames: FramesArg)
      modifies this
      ensures frames.FrameList? ==> sprites == old(sprites)[stateName := frames.frames]
      ensures frames.SingleFrame? ==> sprites == old(sprites)[stateName := [frames.frame]]
      ensures stateName in sprites
      ensures forall s | s != stateName :: (s in sprites <==> s in old(sprites))
      ensures forall s | s != stateName && s in sprites :: sprites[s] == old(sprites)[s]
      ensures old(Valid()) && (frames.SingleFrame? ==> frames.frame.Drawable())
              && (frames.FrameList? ==> |frames.frames| > 0 && forall f | f in frames.frames :: f.Drawable())
              ==> Valid()
      ensures frames.FrameList? ==>
                (CanDraw(stateName) <==> |frames.frames| > 0 && forall f | f in frames.frames :: f.Drawable())
      ensures frames.SingleFrame? ==> (CanDraw(stateName) <==> frames.frame.Drawable())
    {
      match frames
      case FrameList(list) => sprites := sprites[stateName := list];
      case SingleFrame(frame) => sprites := sprites[stateName := [frame]];
    }
  }

  /** A valid table can draw every state, known or not. */
  lemma ValidCanDraw(m: SpriteManager, stateName: string)
    requires m.Valid()
    ensures m.CanDraw(stateName)
  {
  }

  /** The animation index cycles: advancing by the number of frames gives the same frame. */
  lemma GetSpriteCycles(m: SpriteManager, stateName: string, frameIdx: int)
    requires stateName in m.sprites && |m.sprites[stateName]| > 0
    ensures m.GetSprite(stateName, frameIdx + |m.sprites[stateName]|) == m.GetSprite(stateName, frameIdx)
  {
    Arith.ModAddDivisor(frameIdx, |m.sprites[stateName]|);
  }

  /** Five advances through a four-frame animation land on frame 1. */
  lemma FiveAdvancesOfFourFrames(m: SpriteManager, stateName: string)
    requires stateName in m.sprites && |m.sprites[stateName]| == 4
    ensures m.GetSprite(stateName, 5) == m.sprites[stateName][1]
  {
  }
}
